=== FILE: README.md ===
# Regional stream-forecast map: layer stack, menu, popup and legend

This project models the state that the regional map page keeps, and the rules by
which its handlers change that state. The map library, the HTTP client and React
stay outside the model. Their calls appear as inputs and events.

- **MapRegion** (`map_region.dfy`). Six tile layers are built in a fixed
  stacking order: osm, watersheds, counties, highways, hidrography,
  telemetry_stations. Each data layer is then given a name and a WMS source.
  `BuildMap` performs those steps on `TileLayer` and `OlMap` objects and is
  proved to produce `InitialStack()`. The lemmas state what that stack holds.
- **Menu** (`menu.dfy`). `handleLayerVisibility` and `handleLayerOpacity`
  walk the whole layer collection. They update, in place, every layer whose
  name equals the given one. Each handler is a loop proved against
  `UpdateByName`, a function on the stack. The same file holds the `hidden`
  toggle and the two modal flags.
- **Popup** (`popup.dfy`). The state is `popcoords`, `stations`, `thickness`
  and `head`, plus the popup element's inline `display` and the overlays added
  to the map. It changes on a single click, on a response and on close.
  `Session` runs any interleaving of these events. Responses carry no click
  tag, so a late response still lands.
  - The response's field comes from `layerName.split('_')[1]`.
  - On this map only the telemetry layer passes the hit-test filter. Its
    className is not the default `ol-layer`.
  - A click on that layer issues one request for it (`InitialMapIssuesStations`).
  - That layer's name is `stations`, which has no `_`. Every response
    therefore goes to `head`. The model reproduces this behaviour; it does not
    fix it (`InitialMapOnlyHead`).
- **Legend** (`legend.dfy`). Builds the legend request path. Replaces the
  first `Com previsão` in the fetched HTML, then the first `Sem previsão` in
  that result. The legend is fetched again whenever the map file, the layer
  name or the translation function `t` changes. The stored legend stays empty
  until a request succeeds.
- **JsString** (`js_string.dfy`). The ECMAScript 2015 semantics of
  `String.prototype.split` with a one-character separator (section 21.1.3.17),
  `indexOf` (section 21.1.3.8) and `replace` with a string pattern (section
  21.1.3.14). For `replace` this includes the `$` patterns of GetSubstitution
  (section 21.1.3.14.1).

The model follows the code in a few points worth stating outright:
- A response is stored as the raw text the server returned. Nothing classifies it or splits it into fields; it is only handed to the HTML parser for display (`RowCell`).
- The layer handlers accept any name and any opacity, with no clamping.
- A response that arrives after a newer click is not discarded.
- Two responses routed to the same row do not merge: the later one wins.

## Model

| member | source | states |
|---|---|---|
| `MapRegion.Built` | src/components/MapRegion/index.tsx:30-39 | a new layer has no name and opacity 1; it is visible unless `visible: false` is given; its className is the given one, or `ol-layer` when none is given |
| `MapRegion.TileLayer.constructor` | src/components/MapRegion/index.tsx:30-39 | a layer object starts in the `Built` state for its options |
| `MapRegion.TileLayer.SetName` | src/components/MapRegion/index.tsx:125 | `set('name', n)` changes only the name |
| `MapRegion.TileLayer.SetSource` | src/components/MapRegion/index.tsx:126 | `setSource` changes only the source |
| `MapRegion.TileLayer.SetVisible` | src/components/Menu/index.tsx:94 | `setVisible` changes only the visibility |
| `MapRegion.TileLayer.SetOpacity` | src/components/Menu/index.tsx:105 | `setOpacity` stores the value as given and changes nothing else |
| `MapRegion.InitialView` | src/components/MapRegion/index.tsx:41-53 | projection EPSG:4326; the initial zoom 7 lies within [minZoom 7, maxZoom 12] |
| `MapRegion.OlMap.constructor` | src/components/MapRegion/index.tsx:55-72 | the map holds the given (distinct) layers in the given order and no overlays |
| `MapRegion.OlMap.Stack` | src/components/MapRegion/index.tsx:59-66 | the stack has one entry per layer object, in collection order |
| `MapRegion.OlMap.AddOverlay` | src/components/Popup/index.tsx:118 | `addOverlay` appends one overlay and removes none |
| `MapRegion.NewLayers` | src/components/MapRegion/index.tsx:30-39 | creates six distinct fresh layers with the options of the literal |
| `MapRegion.AttachSource` | src/components/MapRegion/index.tsx:125-127 | names a layer and gives it its source; nothing else changes |
| `MapRegion.AttachSources` | src/components/MapRegion/index.tsx:125-143 | after the five naming steps the stack is exactly `InitialStack()` |
| `MapRegion.BuildMap` | src/components/MapRegion/index.tsx:29-153 | the built map has the initial view, no overlays and the stack `InitialStack()`; the popup receives only the stations source |
| `MapRegion.InitialHidden` | src/components/MapRegion/index.tsx:151 | the menu starts hidden (1) exactly when the window is at most 760 pixels wide, else 0 |
| `MapRegion.StationsSource` | src/components/MapRegion/index.tsx:74-83 | map file `telemetryStations.map`, `LAYERS` 'stations', gutter 140 |
| `MapRegion.WatershedsSource` | src/components/MapRegion/index.tsx:85-93 | map file `watersheds.map`, `LAYERS` 'watersheds' |
| `MapRegion.CountiesSource` | src/components/MapRegion/index.tsx:95-103 | map file `counties.map`, `LAYERS` 'counties' |
| `MapRegion.HighwaysSource` | src/components/MapRegion/index.tsx:105-113 | map file `highwaysRegion.map`, `LAYERS` 'Rodovias' |
| `MapRegion.HidrographySource` | src/components/MapRegion/index.tsx:115-123 | map file `hidrographyRegion.map`, `LAYERS` 'hidrografia' |
| `MapRegion.InitialOptions` | src/components/MapRegion/index.tsx:30-39 | the options of the six layers in stacking order; only the telemetry layer gets a className, and the basemap gets no `visible` option; its properties are stated by the `Initial…` lemmas below |
| `MapRegion.InitialStack` | src/components/MapRegion/index.tsx:30-143 | the stack once the component has built it; `BuildMap` is proved to produce it, and the `Initial…` lemmas state what it holds |
| `MapRegion.InitialOrder` | src/components/MapRegion/index.tsx:59-66 | the names bottom to top are: none (osm), watersheds, counties, highways, hidrography, stations |
| `MapRegion.InitialVisibility` | src/components/MapRegion/index.tsx:30-39 | every layer starts visible except counties and highways; osm is visible by default |
| `MapRegion.InitialNames` | src/components/MapRegion/index.tsx:125-141 | the six names are pairwise distinct; only the basemap has none |
| `MapRegion.InitialClassNames` | src/components/MapRegion/index.tsx:30-39 | only the stations layer has a className other than `ol-layer` |
| `MapRegion.InitialSources` | src/components/MapRegion/index.tsx:74-143 | a layer is named exactly when it has a WMS source; osm has the OSM source; the `LAYERS` parameters are watersheds, counties, Rodovias, hidrografia, stations |
| `Menu.Apply` | src/components/Menu/index.tsx:93-95 | a change never alters a layer's name, className or source |
| `Menu.UpdateIfNamed` | src/components/Menu/index.tsx:93-95 | one step of the walk: a layer whose name equals the given one gets the change, and an unnamed layer never matches; `UpdateByNameAt` states its effect within the walk |
| `Menu.UpdateByName` | src/components/Menu/index.tsx:92-96 | the walk keeps the number of layers |
| `Menu.UpdateByNameAt` | src/components/Menu/index.tsx:92-96 | every layer named `id` gets the change, however many there are (no early exit); every other layer is unchanged |
| `Menu.UpdateByNameAbsent` | src/components/Menu/index.tsx:92-96 | a name that matches no layer changes nothing |
| `Menu.UpdateByNameKeys` | src/components/Menu/index.tsx:88-110 | no layer is added, removed, renamed or moved; the set of (name, className, source) keys is preserved |
| `Menu.UpdateByNameSeparates` | src/components/Menu/index.tsx:101-107 | a visibility change keeps every opacity and an opacity change keeps every visibility; a matched layer gets exactly the given value, unclamped |
| `Menu.UpdateByNameIdempotent` | src/components/Menu/index.tsx:92-96 | applying the same change twice equals applying it once |
| `Menu.InitialUpdateReachesOneLayer` | src/components/Menu/index.tsx:92-96 | on the initial stack a name reaches only the layer that carries it, and never the unnamed basemap |
| `Menu.ToggledHidden` | src/components/Menu/index.tsx:80-86 | `hidden === 0 ? 1 : 0`; `ToggledHiddenTwice` states its properties |
| `Menu.ToggledHiddenTwice` | src/components/Menu/index.tsx:80-86 | toggling yields 0 or 1, changes 0 and 1, and twice restores 0 or 1 |
| `Menu.Menu.constructor` | src/components/Menu/index.tsx:44-46 | `hidden` starts at the given value and both modals are closed |
| `Menu.Menu.ShowTermsOfUseModal` | src/components/Menu/index.tsx:62-64 | opens the terms modal only |
| `Menu.Menu.ShowMetadataModal` | src/components/Menu/index.tsx:66-68 | opens the metadata modal only |
| `Menu.Menu.HandleOk` | src/components/Menu/index.tsx:70-73 | closes both modals; same contract as `HandleCancel` |
| `Menu.Menu.HandleCancel` | src/components/Menu/index.tsx:75-78 | closes both modals; same contract as `HandleOk` |
| `Menu.Menu.HandleMenu` | src/components/Menu/index.tsx:80-86 | `hidden` becomes `ToggledHidden` of its old value; the modals are untouched |
| `Menu.Menu.HandleLayerVisibility` | src/components/Menu/index.tsx:88-99 | the map's stack becomes `UpdateByName(old stack, id, SetVisible(e))` |
| `Menu.Menu.HandleLayerOpacity` | src/components/Menu/index.tsx:101-110 | the map's stack becomes `UpdateByName(old stack, name, SetOpacity(opacity))` |
| `JsString.Split` | src/components/Popup/index.tsx:82 | `split` yields at least one segment, and no segment holds the separator |
| `JsString.JoinSplit` | src/components/Popup/index.tsx:82 | joining the segments with the separator gives the string back |
| `JsString.SplitJoin` | src/components/Popup/index.tsx:82 | splitting a join of separator-free segments gives the segments back, so the decomposition is unique |
| `JsString.SplitWithoutSeparator` | src/components/Popup/index.tsx:82 | a string without the separator splits into itself alone |
| `JsString.SplitInTwo` | src/components/Popup/index.tsx:82 | there is a second segment exactly when the separator occurs |
| `JsString.Segment` | src/components/Popup/index.tsx:82 | `split(sep)[i]` is defined exactly when there are more than i segments, and is then segment i of `Split`, which holds no separator |
| `JsString.IndexOfFrom` | src/components/LayerSwitcher/Legend/index.tsx:30 | the result is -1 when there is no occurrence from `from` on; otherwise it is the first such occurrence |
| `JsString.IndexOf` | src/components/LayerSwitcher/Legend/index.tsx:30 | -1 exactly when the pattern does not occur; otherwise the position of its first occurrence |
| `JsString.IndexOfFirst` | src/components/LayerSwitcher/Legend/index.tsx:30 | an occurrence with none before it is the one found |
| `JsString.Substitute` | src/components/LayerSwitcher/Legend/index.tsx:30-31 | GetSubstitution for a string pattern: a replacement without `$` is inserted verbatim; `SubstituteDollarDollar`, `SubstituteDollarMatched`, `SubstituteDollarBefore`, `SubstituteDollarAfter` and `SubstituteLiteral` state each pattern for any tail |
| `JsString.SubstituteDollarDollar` | src/components/LayerSwitcher/Legend/index.tsx:30-31 | `$$` inserts one `$`, and whatever follows is substituted in turn |
| `JsString.SubstituteDollarMatched` | src/components/LayerSwitcher/Legend/index.tsx:30-31 | `$&` inserts the matched text, and whatever follows is substituted in turn |
| `JsString.SubstituteDollarBefore` | src/components/LayerSwitcher/Legend/index.tsx:30-31 | `` $` `` inserts the text before the match, and whatever follows is substituted in turn |
| `JsString.SubstituteDollarAfter` | src/components/LayerSwitcher/Legend/index.tsx:30-31 | `$'` inserts the text after the match, and whatever follows is substituted in turn |
| `JsString.SubstituteLiteral` | src/components/LayerSwitcher/Legend/index.tsx:30-31 | a character other than `$` is copied; a `$` followed by a character that starts no pattern, or by nothing, is kept as a literal `$` |
| `JsString.SubstitutePatterns` | src/components/LayerSwitcher/Legend/index.tsx:30-31 | in front of a `$`-free tail, `$$` inserts `$`, `$&` the matched text, `` $` `` the text before the match, `$'` the text after it, and any other `$` is kept with the character after it |
| `JsString.ReplaceFirstMatched` | src/components/LayerSwitcher/Legend/index.tsx:30-31 | `replace(p, '$&')` leaves every string unchanged |
| `JsString.ReplaceFirstEscapedDollar` | src/components/LayerSwitcher/Legend/index.tsx:30-31 | `replace(p, '$$')` gives the same result as `replace(p, '$')` |
| `JsString.ReplaceFirst` | src/components/LayerSwitcher/Legend/index.tsx:30-31 | `replace` with a string pattern: with no occurrence the string is returned unchanged; the case with an occurrence is stated by `ReplaceFirstAt` |
| `JsString.ReplaceFirstAt` | src/components/LayerSwitcher/Legend/index.tsx:30 | only the first occurrence is replaced; the text before it and the whole text after it, later occurrences included, are kept |
| `JsString.ReplaceFirstPlain` | src/components/LayerSwitcher/Legend/index.tsx:30 | with a `$`-free replacement the result is prefix + replacement + suffix |
| `JsString.ReplaceFirstAtStart` | src/components/LayerSwitcher/Legend/index.tsx:30 | a string that starts with the pattern has that leading occurrence replaced |
| `Popup.VarName` | src/components/Popup/index.tsx:82 | the variable name is undefined exactly when the layer name holds no '_'; otherwise it is the second '_'-separated segment of the name |
| `Popup.VarNameOfJoin` | src/components/Popup/index.tsx:82 | a name made of two or more '_'-free parts joined by '_' has its second part as variable name |
| `Popup.StationsVarName` | src/components/Popup/index.tsx:82 | the name "stations" has no second segment |
| `Popup.Route` | src/components/Popup/index.tsx:88-94 | a response goes to `stations` exactly for the variable name 'stations', to `thickness` exactly for 'thickness', and to `head` otherwise, an undefined name included |
| `Popup.RouteByName` | src/components/Popup/index.tsx:82-94 | a name without '_' routes to `head`, so "stations" does; "telemetry_stations" would reach `stations` |
| `Popup.PassesFilter` | src/components/Popup/index.tsx:97 | the `layerFilter`: a layer takes part exactly when its className is not `ol-layer` |
| `Popup.Queryable` | src/components/Popup/index.tsx:74-82 | the callback gets through without a TypeError exactly when the layer has a WMS source and a name |
| `Popup.Passing` | src/components/Popup/index.tsx:97 | the hits that pass the filter, in visiting order; never more than the hits, and each passes the filter |
| `Popup.PassingMembers` | src/components/Popup/index.tsx:97 | a layer is in `Passing(hits)` exactly when it is a hit that passes the filter |
| `Popup.IssueQueries` | src/components/Popup/index.tsx:71-98 | a click issues no more requests than there are hits, and each request's variable name is derived from its layer's name |
| `Popup.IssueQueriesRequests` | src/components/Popup/index.tsx:71-98 | request i is for the i-th hit that passes the filter, and that layer can be queried; the walk completes exactly when every passing hit got its request; otherwise it stopped at the first passing hit that cannot be queried |
| `Popup.IssueQueriesCompleted` | src/components/Popup/index.tsx:71-98 | the walk completes exactly when every hit that passes the filter has a WMS source and a name |
| `Popup.InitialKey` | src/components/Popup/index.tsx:97 | among the initial layers, the filter admits exactly the telemetry layer |
| `Popup.InitialMapQueries` | src/components/Popup/index.tsx:71-98 | on the initial map a click always completes and every request is for "stations" with no variable name |
| `Popup.InitialMapIssuesStations` | src/components/Popup/index.tsx:71-98 | on the initial map, a click that hits the stations layer issues a request for it, with an undefined variable name, so its response goes to `head` |
| `Popup.PassingNonEmpty` | src/components/Popup/index.tsx:50-58 | the hit test reports a hit exactly when some hit layer passes the filter |
| `Popup.CursorAfterMove` | src/components/Popup/index.tsx:45-58 | the cursor is unchanged while dragging; otherwise it is 'pointer' exactly when some hit passes the filter, and '' when none does |
| `Popup.InitialMapCursor` | src/components/Popup/index.tsx:45-58 | on the initial map, when not dragging, the cursor becomes "pointer" exactly when the stations layer is hit |
| `Popup.Initial` | src/components/Popup/index.tsx:27-30 | the four values start undefined and the element has no inline display style |
| `Popup.Click` | src/components/Popup/index.tsx:61-119 | the single-click transition; `ClickEffect` states its effect |
| `Popup.Respond` | src/components/Popup/index.tsx:86-95 | the response transition; `RespondWritesOneField` states its effect |
| `Popup.Close` | src/components/Popup/index.tsx:32-42 | the close transition; `CloseKeepsCoordinates` states its effect |
| `Popup.ClickEffect` | src/components/Popup/index.tsx:61-119 | a click clears all three values; if its walk completes it stores the coordinates, shows the element and adds exactly one overlay at the click; if the walk throws, only the clearing takes effect |
| `Popup.RespondWritesOneField` | src/components/Popup/index.tsx:86-95 | a response writes exactly the field it routes to; the other two fields, the coordinates, the element and the overlays are untouched |
| `Popup.CloseKeepsCoordinates` | src/components/Popup/index.tsx:32-42 | close clears the three values and sets display to none; the coordinates and overlays are kept |
| `Popup.LaterResponseWins` | src/components/Popup/index.tsx:86-95 | of two responses routed to one field, the later one stays |
| `Common.Truthy` | src/components/Popup/index.tsx:183-185 | JavaScript truthiness of an optional string: defined and not empty |
| `Popup.VisibleRows` | src/components/Popup/index.tsx:183-185 | the data rows rendered; `RenderedRows` states which, and that they come in table order |
| `Popup.RowCell` | src/components/Popup/index.tsx:128-149 | a row's value cell: the parsed value when truthy, else 'Fora da camada' |
| `Popup.CoordsCell` | src/components/Popup/index.tsx:194 | the coordinates cell: the coordinates when truthy, else 'Clique no mapa' |
| `Popup.RenderedRows` | src/components/Popup/index.tsx:183-194 | a row is rendered exactly when its value is truthy, rows come in table order (stations, thickness, head), and a rendered row never shows its placeholder; the coordinates cell shows 'Clique no mapa' until coordinates are set |
| `Popup.Popup.constructor` | src/components/Popup/index.tsx:27-30 | all four values start undefined |
| `Popup.Popup.ClosePopUp` | src/components/Popup/index.tsx:32-42 | the state becomes `Close` of the old state |
| `Popup.Popup.OnSingleClick` | src/components/Popup/index.tsx:61-119 | the state becomes that of `Click`, and the requests returned are those the click issues |
| `Popup.Popup.OnResponse` | src/components/Popup/index.tsx:86-95 | the state becomes `Respond` of the old state |
| `Popup.Enabled` | src/components/Popup/index.tsx:86-95 | a request's outcome arrives only while it is in flight, so at most once |
| `Popup.OutcomeRemoves` | src/components/Popup/index.tsx:86-95 | a resolved or rejected request loses one copy from those in flight, so each request issued has at most one outcome |
| `Popup.Step` | src/components/Popup/index.tsx:32-119 | one event of a session: a click adds the requests it issues to those in flight, and an outcome removes its request |
| `Popup.Run` | src/components/Popup/index.tsx:32-119 | a session after a valid sequence of events; `RunOverlays` and `InitialMapOnlyHead` state what it keeps |
| `Popup.RunOverlays` | src/components/Popup/index.tsx:106-118 | in any interleaving, overlays only accumulate: one per completed click, at its position, in order |
| `Popup.StaleResponseOverwrites` | src/components/Popup/index.tsx:61-95 | a request issued before a newer click is still in flight after it; when it resolves, it overwrites its field under the newer click's coordinates |
| `Popup.StepKeepsOnlyHead` | src/components/Popup/index.tsx:61-98 | on the initial map, every single event keeps `stations` and `thickness` unset and every request in flight routed to `head` |
| `Popup.InitialMapOnlyHead` | src/components/Popup/index.tsx:81-94 | on the initial map, in any interleaving, `stations` and `thickness` stay unset and every request in flight routes to `head` |
| `Popup.InitialSession` | src/components/Popup/index.tsx:27-30 | the session at page load: nothing set, no overlays, no requests in flight |
| `Popup.NoStationsRowFromStart` | src/components/Popup/index.tsx:183-185 | from page load on the initial map, the stations and thickness values are never set |
| `Legend.LegendPath` | src/components/LayerSwitcher/Legend/index.tsx:23 | the path is the map file, then `.map&mode=legend&layer=`, then the layer name |
| `Legend.LegendPathInjective` | src/components/LayerSwitcher/Legend/index.tsx:23 | for one map file the path determines the layer name |
| `Legend.LegendText` | src/components/LayerSwitcher/Legend/index.tsx:29-31 | the two chained replacements; if neither label occurs, the HTML is passed on unchanged |
| `Legend.LegendFirstStep` | src/components/LayerSwitcher/Legend/index.tsx:30 | only the first 'Com previsão' is replaced by its translation; the second replacement works on that output |
| `Legend.SecondStepHitsFirstTranslation` | src/components/LayerSwitcher/Legend/index.tsx:29-31 | if the first label's translation reads 'Sem previsão', the second step replaces that inserted text and keeps the legend's own 'Sem previsão' |
| `Legend.EffectRuns` | src/components/LayerSwitcher/Legend/index.tsx:37 | the effect runs on the first render, and later exactly when `mapfile`, `name` or the translation function `t` changed |
| `Legend.LanguageSwitchRefetches` | src/components/LayerSwitcher/Legend/index.tsx:37 | a language switch re-runs the effect even when both labels read the same in the new language |
| `Legend.Settled` | src/components/LayerSwitcher/Legend/index.tsx:26-36 | a failed request changes nothing; a response always leaves parsed content |
| `Legend.SettleAll` | src/components/LayerSwitcher/Legend/index.tsx:19-36 | the content after a series of settled requests; once a response is stored, the content never returns to the initial `Empty` value |
| `Legend.SettleAllLastSuccess` | src/components/LayerSwitcher/Legend/index.tsx:19-36 | the legend stays the initial empty content while every request fails; otherwise it holds the text of the last successful response |
| `Legend.Legend.constructor` | src/components/LayerSwitcher/Legend/index.tsx:19 | the legend starts as the empty list |
| `Legend.Legend.Render` | src/components/LayerSwitcher/Legend/index.tsx:21-26 | a request is issued exactly when `mapfile`, `name` or `t` changed; its path is `LegendPath(mapfile, name)` and it carries the labels of `t` |
| `Legend.Legend.Settle` | src/components/LayerSwitcher/Legend/index.tsx:26-36 | a response stores the parsed legend text; a failure changes nothing |

## Left out

- Tile rendering, projections, the view's centre and extent, and overlay positioning are left out. An overlay is recorded only by its coordinate.
- Pixel hit-testing is left out. The layers that `forEachLayerAtPixel` reports at a pixel are an input sequence (`hits`): the visible layers with data at the pixel, in visiting order, before the `layerFilter` is applied. `Passing` and `IssueQueries` apply that filter.
- The WMS requests, `getFeatureInfoUrl` and the legend GET are left out. A request is a value, and its outcome is an event carrying an opaque response string. The server's base URL is left out too; a source records only its map file.
- `createStringXY(5)` is left out. A click event carries the formatted coordinate label as an input.
- Opacity is a `real` without floating-point rounding. No clamping happens in the code, so none is modelled.
- The React lifecycle is left out: hook state, re-renders, `useCallback` memoisation and the `singleclick`/`pointermove` listeners, which are registered again on every render of the map component (a new `source` array each time). Each handler is modelled as running once per event.
- `document.title`, the cursor's CSS, Modal/MathJax rendering and i18n lookups are left out. Translations are opaque strings.
- `HtmlParser` is not modelled. `Legend.Content.Parsed(text)` stands for its output on `text`.
- A `$n` or `$<` in a replacement string is kept literally. A string pattern has no captures, and ECMAScript 2015 leaves `$n` implementation-defined in that case.
- src/components/LayerSwitcher/styles.ts is CSS only and is not part of this model.
- src/pages/Region/index.tsx only renders the map. The map ignores its props.
- `Legend.EffectRuns`: the identity of `t` is modelled as the language it is bound to. A new `t` issued for the same language, for instance after its resources are reloaded, is not distinguished, and such a re-fetch is not modelled.
- `Legend.Legend.Render`: the same approximation of the identity of `t` as in `Legend.EffectRuns`. The labels are looked up through the captured `t` when the request settles; the request records the labels of its `t`, which agree because one `t` is taken to return the same strings throughout.
- `Legend.SettleAll`: `Parsed("")`, the result of an empty response body, is kept distinct from the initial `Empty`; in the page both render as an empty legend.
- `MapRegion.OlMap.constructor`: the model requires distinct layer objects. The map's layer collection is a unique collection that rejects duplicates, and the rejection is not modelled.

=== FILE: common.dfy ===
/** Values shared by every component: JavaScript's `undefined` is modelled as `None`. */
module Common {

  datatype Option<+T> = None | Some(value: T)

  /** JavaScript truthiness of a value that is either `undefined` or a string:
      `undefined` and the empty string are falsy, every other string is truthy. */
  predicate Truthy(v: Option<string>)
  {
    v.Some? && v.value != ""
  }
}

=== FILE: js_string.dfy ===
/**
 * The three `String.prototype` operations the components rely on, written out with
 * the semantics ECMAScript 2015 gives them for a string argument:
 *  - `split(sep)` with a one-character separator and no limit (section 21.1.3.17),
 *  - `indexOf(search)` from position 0 (section 21.1.3.8),
 *  - `replace(pattern, replacement)` with a string pattern (section 21.1.3.14),
 *    including the `$` patterns of GetSubstitution (section 21.1.3.14.1).
 */
module JsString {
  import opened Common

  // ---------------------------------------------------------------- split

  /** `s.split(sep)`: the maximal runs between separators, left to right. There is
      always at least one segment (`"".split("_")` is `[""]`) and no segment holds
      the separator. */
  function Split(s: string, sep: char): (parts: seq<string>)
    ensures |parts| >= 1
    ensures forall i :: 0 <= i < |parts| ==> sep !in parts[i]
  {
    if s == [] then [[]]
    else
      var rest := Split(s[1..], sep);
      if s[0] == sep then [[]] + rest
      else [[s[0]] + rest[0]] + rest[1..]
  }

  /** `parts.join(sep)`: the inverse of `Split`, used only to state what `Split` means. */
  function Join(parts: seq<string>, sep: char): string
    requires |parts| >= 1
  {
    if |parts| == 1 then parts[0] else parts[0] + [sep] + Join(parts[1..], sep)
  }

  /** Joining the segments back with the separator gives the original string. */
  lemma {:induction false} JoinSplit(s: string, sep: char)
    ensures Join(Split(s, sep), sep) == s
  {
    if s != [] {
      var rest := Split(s[1..], sep);
      JoinSplit(s[1..], sep);
      if s[0] == sep {
        assert Split(s, sep) == [[]] + rest;
        assert ([[]] + rest)[1..] == rest;
      } else {
        var parts := [[s[0]] + rest[0]] + rest[1..];
        assert Split(s, sep) == parts;
        if |rest| > 1 {
          assert parts[1..] == rest[1..];
          assert Join(rest, sep) == rest[0] + [sep] + Join(rest[1..], sep);
        }
      }
    }
  }

  /** Prepending a non-separator character to the first segment of a list. */
  lemma JoinConsHead(c: char, parts: seq<string>, sep: char)
    requires |parts| >= 1
    ensures Join([[c] + parts[0]] + parts[1..], sep) == [c] + Join(parts, sep)
  {
    var moved := [[c] + parts[0]] + parts[1..];
    if |parts| > 1 {
      assert moved[1..] == parts[1..];
    }
  }

  /** Splitting a joined list whose segments hold no separator gives the list back;
      with `JoinSplit` this says that `Split` is the unique such decomposition. */
  lemma {:induction false} SplitJoin(parts: seq<string>, sep: char)
    requires |parts| >= 1
    requires forall i :: 0 <= i < |parts| ==> sep !in parts[i]
    ensures Split(Join(parts, sep), sep) == parts
    decreases |parts|, |parts[0]|
  {
    if parts[0] == [] {
      if |parts| > 1 {
        var tail := parts[1..];
        SplitJoin(tail, sep);
        assert Join(parts, sep) == [sep] + Join(tail, sep);
        assert ([sep] + Join(tail, sep))[1..] == Join(tail, sep);
        assert [[]] + tail == parts;
      }
    } else {
      var c := parts[0][0];
      assert c in parts[0];
      var shorter := [parts[0][1..]] + parts[1..];
      assert shorter[0] == parts[0][1..];
      forall i | 0 <= i < |shorter| ensures sep !in shorter[i] {
        if i == 0 {
          assert forall x :: x in parts[0][1..] ==> x in parts[0];
        } else {
          assert shorter[i] == parts[i];
        }
      }
      SplitJoin(shorter, sep);
      JoinConsHead(c, shorter, sep);
      assert [c] + shorter[0] == parts[0];
      assert shorter[1..] == parts[1..];
      assert [[c] + shorter[0]] + shorter[1..] == parts;
      var s := Join(parts, sep);
      assert s == [c] + Join(shorter, sep);
      assert s[1..] == Join(shorter, sep);
    }
  }

  /** A string without the separator splits into itself alone. */
  lemma SplitWithoutSeparator(s: string, sep: char)
    requires sep !in s
    ensures Split(s, sep) == [s]
  {
    SplitJoin([s], sep);
  }

  /** A string splits into more than one segment exactly when it holds the separator. */
  lemma SplitInTwo(s: string, sep: char)
    ensures |Split(s, sep)| > 1 <==> sep in s
  {
  }

  /** `s.split(sep)[index]`: `undefined` past the last segment. */
  function Segment(s: string, sep: char, index: nat): (r: Option<string>)
    ensures r.Some? <==> index < |Split(s, sep)|
    ensures r.Some? ==> r.value == Split(s, sep)[index] && sep !in r.value
  {
    var parts := Split(s, sep);
    if index < |parts| then Some(parts[index]) else None
  }

  // -------------------------------------------------------------- indexOf

  /** `p` occurs in `s` at position `i`. */
  predicate OccursAt(s: string, p: string, i: int)
  {
    0 <= i && i + |p| <= |s| && s[i..i + |p|] == p
  }

  /** The first position at or after `from` where `p` occurs, or -1. */
  function IndexOfFrom(s: string, p: string, from: nat): (r: int)
    ensures r == -1 || (from <= r && OccursAt(s, p, r))
    ensures r == -1 ==> forall i :: from <= i ==> !OccursAt(s, p, i)
    ensures r != -1 ==> forall i :: from <= i < r ==> !OccursAt(s, p, i)
    decreases |s| - from
  {
    if from + |p| > |s| then -1
    else if s[from..from + |p|] == p then from
    else IndexOfFrom(s, p, from + 1)
  }

  /** `s.indexOf(p)`: the first occurrence of `p` in `s`, or -1 when there is none. */
  function IndexOf(s: string, p: string): (r: int)
    ensures r == -1 <==> forall i :: !OccursAt(s, p, i)
    ensures r != -1 ==> OccursAt(s, p, r) && forall i :: 0 <= i < r ==> !OccursAt(s, p, i)
  {
    IndexOfFrom(s, p, 0)
  }

  /** An occurrence with none before it is the one `IndexOf` finds. */
  lemma IndexOfFirst(s: string, p: string, i: nat)
    requires OccursAt(s, p, i)
    requires forall j :: 0 <= j < i ==> !OccursAt(s, p, j)
    ensures IndexOf(s, p) == i
  {
  }

  // -------------------------------------------------------------- replace

  /** GetSubstitution for a string pattern (so there are no captures): `$$` stands
      for `$`, `$&` for the matched text, `` $` `` for the text before the match,
      `$'` for the text after it; any other `$` (including `$1` and `$<`) is kept. */
  function Substitute(replacement: string, matched: string, before: string, after: string): (r: string)
    ensures '$' !in replacement ==> r == replacement
    decreases |replacement|
  {
    if replacement == [] then []
    else if replacement[0] == '$' && |replacement| >= 2 then
      var rest := Substitute(replacement[2..], matched, before, after);
      if replacement[1] == '$' then "$" + rest
      else if replacement[1] == '&' then matched + rest
      else if replacement[1] == '`' then before + rest
      else if replacement[1] == '\'' then after + rest
      else "$" + Substitute(replacement[1..], matched, before, after)
    else
      assert '$' !in replacement ==> '$' !in replacement[1..] by {
        assert forall x :: x in replacement[1..] ==> x in replacement;
      }
      [replacement[0]] + Substitute(replacement[1..], matched, before, after)
  }

  /** `$$` inserts a single `$`, whatever follows it. */
  lemma SubstituteDollarDollar(rest: string, matched: string, before: string, after: string)
    ensures Substitute("$$" + rest, matched, before, after) == "$" + Substitute(rest, matched, before, after)
  {
  }

  /** `$&` inserts the matched text, whatever follows it. */
  lemma SubstituteDollarMatched(rest: string, matched: string, before: string, after: string)
    ensures Substitute("$&" + rest, matched, before, after) == matched + Substitute(rest, matched, before, after)
  {
  }

  /** `` $` `` inserts the text before the match, whatever follows it. */
  lemma SubstituteDollarBefore(rest: string, matched: string, before: string, after: string)
    ensures Substitute("$`" + rest, matched, before, after) == before + Substitute(rest, matched, before, after)
  {
  }

  /** `$'` inserts the text after the match, whatever follows it. */
  lemma SubstituteDollarAfter(rest: string, matched: string, before: string, after: string)
    ensures Substitute("$'" + rest, matched, before, after) == after + Substitute(rest, matched, before, after)
  {
  }

  /** Any other character is copied, and a `$` that starts no pattern (another
      character after it, or nothing) is kept as a literal `$`. */
  lemma SubstituteLiteral(rest: string, matched: string, before: string, after: string, c: char)
    ensures c != '$' ==> Substitute([c] + rest, matched, before, after) == [c] + Substitute(rest, matched, before, after)
    ensures c !in "$&`'" ==> Substitute(['$', c] + rest, matched, before, after)
                             == "$" + Substitute([c] + rest, matched, before, after)
    ensures Substitute("$", matched, before, after) == "$"
  {
  }

  /** Each pattern in front of a `$`-free tail, which comes through unchanged. */
  lemma SubstitutePatterns(rest: string, matched: string, before: string, after: string, c: char)
    requires '$' !in rest
    ensures Substitute("$$" + rest, matched, before, after) == "$" + rest
    ensures Substitute("$&" + rest, matched, before, after) == matched + rest
    ensures Substitute("$`" + rest, matched, before, after) == before + rest
    ensures Substitute("$'" + rest, matched, before, after) == after + rest
    ensures c !in "$&`'" ==> Substitute(['$', c] + rest, matched, before, after) == ['$', c] + rest
  {
  }

  /** `s.replace(p, replacement)`: with no occurrence of `p` the string comes back
      unchanged; otherwise only the first occurrence is replaced (`ReplaceFirstAt`). */
  function ReplaceFirst(s: string, p: string, replacement: string): (r: string)
    ensures (forall i :: !OccursAt(s, p, i)) ==> r == s
  {
    var k := IndexOf(s, p);
    if k == -1 then s
    else s[..k] + Substitute(replacement, p, s[..k], s[k + |p|..]) + s[k + |p|..]
  }

  /** With a first occurrence at `i`, the text before it and the whole text after it
      (later occurrences included) are kept, and the matched text is replaced by the
      substitution of `replacement`. */
  lemma ReplaceFirstAt(s: string, p: string, replacement: string, i: nat)
    requires OccursAt(s, p, i)
    requires forall j :: 0 <= j < i ==> !OccursAt(s, p, j)
    ensures ReplaceFirst(s, p, replacement)
         == s[..i] + Substitute(replacement, p, s[..i], s[i + |p|..]) + s[i + |p|..]
  {
    IndexOfFirst(s, p, i);
  }

  /** The common case, a replacement without `$`: `s[..i] + replacement + s[i + |p|..]`. */
  lemma ReplaceFirstPlain(s: string, p: string, replacement: string, i: nat)
    requires '$' !in replacement
    requires OccursAt(s, p, i)
    requires forall j :: 0 <= j < i ==> !OccursAt(s, p, j)
    ensures ReplaceFirst(s, p, replacement) == s[..i] + replacement + s[i + |p|..]
  {
    ReplaceFirstAt(s, p, replacement, i);
  }

  /** A string that starts with the pattern has that leading occurrence replaced. */
  lemma ReplaceFirstAtStart(p: string, rest: string, replacement: string)
    requires '$' !in replacement
    ensures ReplaceFirst(p + rest, p, replacement) == replacement + rest
  {
    var s := p + rest;
    assert s[..|p|] == p;
    assert s[|p|..] == rest;
    ReplaceFirstPlain(s, p, replacement, 0);
  }

  /** `$&` puts the matched text back, so it leaves every string unchanged. */
  lemma ReplaceFirstMatched(s: string, p: string)
    ensures ReplaceFirst(s, p, "$&") == s
  {
    var i := IndexOf(s, p);
    if i != -1 {
      ReplaceFirstAt(s, p, "$&", i);
      SubstitutePatterns("", p, s[..i], s[i + |p|..], ' ');
      assert "$&" + "" == "$&";
      assert s[..i] + p + s[i + |p|..] == s;
    }
  }

  /** `$$` inserts a single `$`, just as a lone `$` does. */
  lemma ReplaceFirstEscapedDollar(s: string, p: string)
    ensures ReplaceFirst(s, p, "$$") == ReplaceFirst(s, p, "$")
  {
    var i := IndexOf(s, p);
    if i != -1 {
      ReplaceFirstAt(s, p, "$$", i);
      ReplaceFirstAt(s, p, "$", i);
      SubstitutePatterns("", p, s[..i], s[i + |p|..], ' ');
      assert "$$" + "" == "$$";
    }
  }
}

=== FILE: legend.dfy ===
/**
 * The legend of a layer: an effect fetches the legend HTML of a map file's layer,
 * replaces the first "Com previsão" and then the first "Sem previsão" by their
 * translations, parses the result and stores it. The stored value starts as the
 * empty list and is only replaced when a request succeeds.
 */
module Legend {
  import opened Common
  import opened JsString

  const WithForecastLabel := "Com previsão"
  const WithoutForecastLabel := "Sem previsão"

  /** The translations of `label_withforecast` and `label_withoutforecast` in the
      current language. */
  datatype Labels = Labels(withForecast: string, withoutForecast: string)

  /** The translation function `t`. Its identity is that of the language it is bound
      to: switching the language yields a new `t`, even when the two labels read the
      same in both languages. */
  datatype Translation = Translation(language: string, labels: Labels)

  const PathMiddle := ".map&mode=legend&layer="

  /** The request path, relative to the map server's base URL. */
  function LegendPath(mapfile: string, name: string): (path: string)
    ensures |path| == |mapfile| + |PathMiddle| + |name|
    ensures path[..|mapfile| + |PathMiddle|] == mapfile + PathMiddle
    ensures path[|mapfile| + |PathMiddle|..] == name
  {
    mapfile + PathMiddle + name
  }

  /** For a given map file the path determines the layer name. */
  lemma LegendPathInjective(mapfile: string, name: string, other: string)
    ensures LegendPath(mapfile, name) == LegendPath(mapfile, other) ==> name == other
  {
  }

  /** The text handed to the HTML parser: `html.replace(WithForecastLabel, ...)`
      followed by `.replace(WithoutForecastLabel, ...)` on its result. */
  function LegendText(html: string, labels: Labels): (text: string)
    ensures (forall i :: !OccursAt(html, WithForecastLabel, i)) && (forall i :: !OccursAt(html, WithoutForecastLabel, i))
            ==> text == html
  {
    ReplaceFirst(ReplaceFirst(html, WithForecastLabel, labels.withForecast), WithoutForecastLabel, labels.withoutForecast)
  }

  /** The first step replaces only the first "Com previsão" (at `i`); the text after
      it, later occurrences included, is kept as it was. */
  lemma LegendFirstStep(html: string, labels: Labels, i: nat)
    requires '$' !in labels.withForecast
    requires OccursAt(html, WithForecastLabel, i)
    requires forall j :: 0 <= j < i ==> !OccursAt(html, WithForecastLabel, j)
    ensures LegendText(html, labels)
         == ReplaceFirst(html[..i] + labels.withForecast + html[i + |WithForecastLabel|..], WithoutForecastLabel, labels.withoutForecast)
  {
    ReplaceFirstPlain(html, WithForecastLabel, labels.withForecast, i);
  }

  /** The second step also sees the text the first one inserted: when the
      translation of "Com previsão" itself reads "Sem previsão", a legend that starts
      with "Com previsão" has that inserted text replaced, while every "Sem previsão"
      of its own, in `rest`, is kept. */
  lemma SecondStepHitsFirstTranslation(rest: string, labels: Labels)
    requires labels.withForecast == WithoutForecastLabel
    requires '$' !in labels.withoutForecast
    ensures LegendText(WithForecastLabel + rest, labels) == labels.withoutForecast + rest
  {
    assert '$' !in WithoutForecastLabel;
    ReplaceFirstAtStart(WithForecastLabel, rest, labels.withForecast);
    ReplaceFirstAtStart(WithoutForecastLabel, rest, labels.withoutForecast);
  }

  // ------------------------------------------------------------- the component

  /** What the legend renders: the initial empty list, or the parsed form of a text. */
  datatype Content = Empty | Parsed(html: string)

  /** The values the effect depends on. */
  datatype Deps = Deps(mapfile: string, name: string, t: Translation)

  /** A request in flight, with the labels looked up through the captured `t` when it settles. */
  datatype Request = Request(path: string, labels: Labels)

  /** The effect runs on the first render and again only when `mapfile`, `name` or
      the translation function changed. */
  function EffectRuns(previous: Option<Deps>, current: Deps): (runs: bool)
    ensures runs <==> previous.None? || previous.value.mapfile != current.mapfile
                      || previous.value.name != current.name || previous.value.t != current.t
  {
    previous != Some(current)
  }

  /** A language switch re-runs the effect, and so fetches the legend again, even
      when both labels read the same in the new language. */
  lemma LanguageSwitchRefetches(previous: Deps, language: string)
    requires previous.t.language != language
    ensures EffectRuns(Some(previous), previous.(t := Translation(language, previous.t.labels)))
  {
  }

  /** The outcome of a request: a response body stores its parsed legend text; a
      failure (there is no error handler) changes nothing. */
  function Settled(content: Content, request: Request, response: Option<string>): (settled: Content)
    ensures response.None? ==> settled == content
    ensures response.Some? ==> settled.Parsed?
  {
    if response.Some? then Parsed(LegendText(response.value, request.labels)) else content
  }

  /** The content after a series of settled requests. */
  function SettleAll(content: Content, outcomes: seq<(Request, Option<string>)>): (settled: Content)
    ensures settled.Empty? ==> content.Empty?
    decreases |outcomes|
  {
    if outcomes == [] then content
    else SettleAll(Settled(content, outcomes[0].0, outcomes[0].1), outcomes[1..])
  }

  /** The content stays empty until some request succeeds, and afterwards it is the
      legend text of the last successful response. */
  lemma {:induction false} SettleAllLastSuccess(content: Content, outcomes: seq<(Request, Option<string>)>)
    ensures (forall i :: 0 <= i < |outcomes| ==> outcomes[i].1.None?) ==> SettleAll(content, outcomes) == content
    ensures forall i :: 0 <= i < |outcomes| && outcomes[i].1.Some?
                        && (forall j :: i < j < |outcomes| ==> outcomes[j].1.None?)
                        ==> SettleAll(content, outcomes) == Parsed(LegendText(outcomes[i].1.value, outcomes[i].0.labels))
    decreases |outcomes|
  {
    if outcomes != [] {
      var next := Settled(content, outcomes[0].0, outcomes[0].1);
      SettleAllLastSuccess(next, outcomes[1..]);
      assert forall i :: 0 < i < |outcomes| ==> outcomes[1..][i - 1] == outcomes[i];
      forall i | 0 <= i < |outcomes| && outcomes[i].1.Some? && (forall j :: i < j < |outcomes| ==> outcomes[j].1.None?)
        ensures SettleAll(content, outcomes) == Parsed(LegendText(outcomes[i].1.value, outcomes[i].0.labels))
      {
        if i == 0 {
          assert forall j :: 0 <= j < |outcomes[1..]| ==> outcomes[1..][j] == outcomes[j + 1];
        } else {
          assert forall j :: i - 1 < j < |outcomes[1..]| ==> outcomes[1..][j] == outcomes[j + 1];
        }
      }
    }
  }

  class Legend {
    var legendHtml: Content
    /** The dependencies the effect last ran with (kept by React). */
    var deps: Option<Deps>

    constructor ()
      ensures legendHtml == Empty && deps == None
    {
      legendHtml := Empty;
      deps := None;
    }

    /** A render: runs the effect when a dependency changed, which issues the
        legend request; returns the request issued, if any. */
    method Render(mapfile: string, name: string, t: Translation) returns (request: Option<Request>)
      modifies this
      ensures request.Some? <==> EffectRuns(old(deps), Deps(mapfile, name, t))
      ensures request.Some? ==> request.value == Request(LegendPath(mapfile, name), t.labels)
      ensures deps == Some(Deps(mapfile, name, t)) && legendHtml == old(legendHtml)
    {
      var current := Deps(mapfile, name, t);
      if deps != Some(current) {
        request := Some(Request(LegendPath(mapfile, name), t.labels));
      } else {
        request := None;
      }
      deps := Some(current);
    }

    /** The request's promise settles with a body or fails. */
    method Settle(request: Request, response: Option<string>)
      modifies this
      ensures legendHtml == Settled(old(legendHtml), request, response) && deps == old(deps)
    {
      if response.Some? {
        legendHtml := Parsed(LegendText(response.value, request.labels));
      }
    }
  }
}

=== FILE: map_region.dfy ===
/**
 * The map of the region page: six tile layers in a fixed stacking order, each an
 * object whose name, source, visibility and opacity are set in place, and the view.
 * `BuildMap` performs the construction steps of the component; `InitialStack` is the
 * resulting layer stack as a value, and the lemmas below state what it holds.
 */
module MapRegion {
  import opened Common

  /** The className a tile layer gets when none is given. */
  const DefaultClassName := "ol-layer"
  /** The only className the component passes explicitly. */
  const TelemetryClassName := "telemetry-layer"

  /** A map coordinate (longitude, latitude); it is only stored, never computed with. */
  type Coord = (real, real)

  /** A layer's data source: the OpenStreetMap basemap, or a WMS source on a
      mapserver, with its map file (the URL is the server's base URL followed by
      it), its `LAYERS` request parameter and its gutter in pixels. */
  datatype Source = Osm | Wms(mapfile: string, layersParam: string, gutter: nat)

  /** The options a tile layer is built with; a missing option takes its default. */
  datatype LayerOptions = LayerOptions(visible: Option<bool>, className: Option<string>, source: Option<Source>)

  /** What can be observed of a tile layer. */
  datatype LayerState = LayerState(
    name: Option<string>,
    visible: bool,
    opacity: real,
    className: string,
    source: Option<Source>)

  /** The part of a layer that the menu handlers never touch. */
  datatype LayerKey = LayerKey(name: Option<string>, className: string, source: Option<Source>)

  function Key(l: LayerState): LayerKey
  {
    LayerKey(l.name, l.className, l.source)
  }

  function Keys(stack: seq<LayerState>): set<LayerKey>
  {
    set l | l in stack :: Key(l)
  }

  /** The state of a freshly built layer: no name, fully opaque, visible unless told
      otherwise, and the given className or else "ol-layer". */
  function Built(options: LayerOptions): (l: LayerState)
    ensures l.name == None && l.opacity == 1.0 && l.source == options.source
    ensures l.visible <==> options.visible != Some(false)
    ensures l.className == if options.className.Some? then options.className.value else DefaultClassName
  {
    LayerState(
      None,
      if options.visible.Some? then options.visible.value else true,
      1.0,
      if options.className.Some? then options.className.value else DefaultClassName,
      options.source)
  }

  class TileLayer {
    var name: Option<string>
    var visible: bool
    var opacity: real
    const className: string
    var source: Option<Source>

    function State(): LayerState
      reads this
    {
      LayerState(name, visible, opacity, className, source)
    }

    constructor (options: LayerOptions)
      ensures State() == Built(options)
    {
      name := None;
      visible := if options.visible.Some? then options.visible.value else true;
      opacity := 1.0;
      className := if options.className.Some? then options.className.value else DefaultClassName;
      source := options.source;
    }

    /** `layer.set('name', n)` */
    method SetName(n: string)
      modifies this
      ensures State() == old(State()).(name := Some(n))
    {
      name := Some(n);
    }

    /** `layer.setSource(s)` */
    method SetSource(s: Source)
      modifies this
      ensures State() == old(State()).(source := Some(s))
    {
      source := Some(s);
    }

    /** `layer.setVisible(v)` */
    method SetVisible(v: bool)
      modifies this
      ensures State() == old(State()).(visible := v)
    {
      visible := v;
    }

    /** `layer.setOpacity(o)`: stored as given, without clamping. */
    method SetOpacity(o: real)
      modifies this
      ensures State() == old(State()).(opacity := o)
    {
      opacity := o;
    }
  }

  /** The view's fixed settings (the centre and extent are left out). */
  datatype ViewConfig = ViewConfig(projection: string, minZoom: int, maxZoom: int, zoom: int)

  function InitialView(): (v: ViewConfig)
    ensures v.projection == "EPSG:4326"
    ensures v.minZoom <= v.zoom <= v.maxZoom
  {
    ViewConfig("EPSG:4326", 7, 12, 7)
  }

  /** The map: a layer collection that never changes after construction (a unique
      collection, so no layer object appears twice), the overlays added so far
      (by position) and the view. */
  class OlMap {
    const layers: seq<TileLayer>
    const view: ViewConfig
    var overlays: seq<Coord>

    ghost predicate Valid()
    {
      forall i, j :: 0 <= i < j < |layers| ==> layers[i] != layers[j]
    }

    /** The layer stack, bottom first. */
    ghost function Stack(): (s: seq<LayerState>)
      reads layers
      ensures |s| == |layers|
      ensures forall k :: 0 <= k < |layers| ==> s[k] == layers[k].State()
    {
      seq(|layers|, k requires 0 <= k < |layers| reads layers => layers[k].State())
    }

    constructor (layers: seq<TileLayer>, view: ViewConfig)
      requires forall i, j :: 0 <= i < j < |layers| ==> layers[i] != layers[j]
      ensures Valid() && this.layers == layers && this.view == view && overlays == []
    {
      this.layers := layers;
      this.view := view;
      overlays := [];
    }

    /** `map.addOverlay(overlay)`: overlays are only ever added. */
    method AddOverlay(position: Coord)
      modifies this
      ensures overlays == old(overlays) + [position]
    {
      overlays := overlays + [position];
    }
  }

  function StationsSource(): Source
  {
    Wms("telemetryStations.map", "stations", 140)
  }

  function WatershedsSource(): Source
  {
    Wms("watersheds.map", "watersheds", 0)
  }

  function CountiesSource(): Source
  {
    Wms("counties.map", "counties", 0)
  }

  function HighwaysSource(): Source
  {
    Wms("highwaysRegion.map", "Rodovias", 0)
  }

  function HidrographySource(): Source
  {
    Wms("hidrographyRegion.map", "hidrografia", 0)
  }

  /** The layer stack once the component has built it, bottom first. */
  function InitialStack(): seq<LayerState>
  {
    [ LayerState(None, true, 1.0, DefaultClassName, Some(Osm)),
      LayerState(Some("watersheds"), true, 1.0, DefaultClassName, Some(WatershedsSource())),
      LayerState(Some("counties"), false, 1.0, DefaultClassName, Some(CountiesSource())),
      LayerState(Some("highways"), false, 1.0, DefaultClassName, Some(HighwaysSource())),
      LayerState(Some("hidrography"), true, 1.0, DefaultClassName, Some(HidrographySource())),
      LayerState(Some("stations"), true, 1.0, TelemetryClassName, Some(StationsSource())) ]
  }

  /** `window.innerWidth <= 760 ? 1 : 0`: the menu starts hidden on narrow screens. */
  function InitialHidden(innerWidth: int): (h: int)
    ensures h == 0 || h == 1
    ensures h == 1 <==> innerWidth <= 760
  {
    if innerWidth <= 760 then 1 else 0
  }

  /** The options each layer is created with, in stacking order: only the telemetry
      layer gets a className, and the basemap gets no `visible` option. */
  function InitialOptions(): seq<LayerOptions>
  {
    [ LayerOptions(None, None, Some(Osm)),
      LayerOptions(Some(true), None, None),
      LayerOptions(Some(false), None, None),
      LayerOptions(Some(false), None, None),
      LayerOptions(Some(true), None, None),
      LayerOptions(Some(true), Some(TelemetryClassName), None) ]
  }

  /** Creates the six layer objects, returned in stacking order. */
  method NewLayers() returns (layers: seq<TileLayer>)
    ensures |layers| == 6
    ensures forall i, j :: 0 <= i < j < |layers| ==> layers[i] != layers[j]
    ensures forall k :: 0 <= k < 6 ==> fresh(layers[k]) && layers[k].State() == Built(InitialOptions()[k])
  {
    var options := InitialOptions();
    var telemetryStations := new TileLayer(options[5]);
    var highways := new TileLayer(options[3]);
    var hidrography := new TileLayer(options[4]);
    var watersheds := new TileLayer(options[1]);
    var counties := new TileLayer(options[2]);
    var osm := new TileLayer(options[0]);
    layers := [osm, watersheds, counties, highways, hidrography, telemetryStations];
  }

  /** `layer.set('name', name); layer.setSource(source)` (the `refresh` that follows
      only reloads tiles). */
  method AttachSource(layer: TileLayer, name: string, source: Source)
    modifies layer
    ensures layer.State() == old(layer.State()).(name := Some(name), source := Some(source))
  {
    layer.SetName(name);
    layer.SetSource(source);
  }

  /** Names the five data layers of a freshly built map and gives each its source. */
  method AttachSources(olMap: OlMap)
    requires olMap.Valid() && |olMap.layers| == 6
    requires forall k :: 0 <= k < 6 ==> olMap.layers[k].State() == Built(InitialOptions()[k])
    modifies olMap.layers
    ensures olMap.Stack() == InitialStack()
  {
    var layers := olMap.layers;
    AttachSource(layers[1], "watersheds", WatershedsSource());
    AttachSource(layers[2], "counties", CountiesSource());
    AttachSource(layers[3], "highways", HighwaysSource());
    AttachSource(layers[4], "hidrography", HidrographySource());
    AttachSource(layers[5], "stations", StationsSource());
    ghost var built := olMap.Stack();
    ghost var stack := InitialStack();
    assert built[0] == stack[0] && built[1] == stack[1] && built[2] == stack[2];
    assert built[3] == stack[3] && built[4] == stack[4] && built[5] == stack[5];
    SixLayersEqual(built, stack);
  }

  /** Builds the layers, the view and the map, then names each data layer and gives
      it its source; returns the map and the sources handed to the popup. */
  method BuildMap() returns (olMap: OlMap, popupSources: seq<Source>)
    ensures fresh(olMap) && olMap.Valid() && olMap.overlays == []
    ensures forall k :: 0 <= k < |olMap.layers| ==> fresh(olMap.layers[k])
    ensures olMap.view == InitialView()
    ensures olMap.Stack() == InitialStack()
    ensures popupSources == [StationsSource()]
  {
    var layers := NewLayers();
    olMap := new OlMap(layers, InitialView());
    AttachSources(olMap);
    popupSources := [StationsSource()];
  }

  /** Two six-layer stacks that agree layer by layer are equal. */
  lemma SixLayersEqual(a: seq<LayerState>, b: seq<LayerState>)
    requires |a| == 6 && |b| == 6
    requires a[0] == b[0] && a[1] == b[1] && a[2] == b[2]
    requires a[3] == b[3] && a[4] == b[4] && a[5] == b[5]
    ensures a == b
  {
  }

  // ------------------------------------------------ the initial stack

  /** Names of a stack, bottom first (`None` for an unnamed layer). */
  function Names(stack: seq<LayerState>): (names: seq<Option<string>>)
    ensures |names| == |stack|
    ensures forall k :: 0 <= k < |stack| ==> names[k] == stack[k].name
  {
    seq(|stack|, k requires 0 <= k < |stack| => stack[k].name)
  }

  /** The stacking order: osm, watersheds, counties, highways, hidrography, stations. */
  lemma InitialOrder()
    ensures Names(InitialStack())
         == [None, Some("watersheds"), Some("counties"), Some("highways"), Some("hidrography"), Some("stations")]
  {
  }

  /** Initial visibility: only counties and highways start hidden (osm is visible by default). */
  lemma InitialVisibility()
    ensures forall k :: 0 <= k < |InitialStack()| ==>
      (InitialStack()[k].visible <==> InitialStack()[k].name !in {Some("counties"), Some("highways")})
  {
  }

  /** The five data layers have pairwise distinct names; the basemap alone has none. */
  lemma InitialNames()
    ensures forall i, j :: 0 <= i < j < |InitialStack()| ==> InitialStack()[i].name != InitialStack()[j].name
    ensures forall k :: 0 <= k < |InitialStack()| ==> (InitialStack()[k].name.None? <==> k == 0)
  {
  }

  /** Only the telemetry layer has a className other than the default. */
  lemma InitialClassNames()
    ensures forall k :: 0 <= k < |InitialStack()| ==>
      (InitialStack()[k].className != DefaultClassName <==> InitialStack()[k].name == Some("stations"))
  {
  }

  /** Every named layer has one WMS source whose `LAYERS` parameter is that layer's
      mapserver layer; the unnamed basemap has the OpenStreetMap source. */
  lemma InitialSources()
    ensures forall k :: 0 <= k < |InitialStack()| ==>
      (InitialStack()[k].name.Some? <==> InitialStack()[k].source.Some? && InitialStack()[k].source.value.Wms?)
    ensures InitialStack()[0].source == Some(Osm)
    ensures [ InitialStack()[1].source.value.layersParam, InitialStack()[2].source.value.layersParam,
              InitialStack()[3].source.value.layersParam, InitialStack()[4].source.value.layersParam,
              InitialStack()[5].source.value.layersParam ]
         == ["watersheds", "counties", "Rodovias", "hidrografia", "stations"]
  {
  }
}

=== FILE: menu.dfy ===
/**
 * The side menu: its `hidden` flag, the two modal flags, and the two handlers the
 * layer switches call, which walk the map's whole layer collection and update, in
 * place, every layer whose name equals the given one.
 */
module Menu {
  import opened Common
  import opened MapRegion

  /** What a layer switch asks for. */
  datatype Change = SetVisible(visible: bool) | SetOpacity(opacity: real)

  /** The effect of a change on one layer. */
  function Apply(l: LayerState, c: Change): (r: LayerState)
    ensures Key(r) == Key(l)
  {
    match c
    case SetVisible(v) => l.(visible := v)
    case SetOpacity(o) => l.(opacity := o)
  }

  /** One step of the walk: a layer whose name equals `id` gets the change. A layer
      without a name never matches. */
  function UpdateIfNamed(l: LayerState, id: string, c: Change): LayerState
  {
    if l.name == Some(id) then Apply(l, c) else l
  }

  /** The walk over the whole stack, bottom first, with no early exit. */
  function UpdateByName(stack: seq<LayerState>, id: string, c: Change): (r: seq<LayerState>)
    ensures |r| == |stack|
  {
    if stack == [] then [] else [UpdateIfNamed(stack[0], id, c)] + UpdateByName(stack[1..], id, c)
  }

  /** Layer by layer: the stack keeps its length and order, every layer named `id`
      (however many there are) gets the change and every other layer is untouched. */
  lemma {:induction false} UpdateByNameAt(stack: seq<LayerState>, id: string, c: Change, k: nat)
    requires k < |stack|
    ensures UpdateByName(stack, id, c)[k] == if stack[k].name == Some(id) then Apply(stack[k], c) else stack[k]
  {
    if k > 0 {
      UpdateByNameAt(stack[1..], id, c, k - 1);
    }
  }

  /** A stack given layer by layer is `UpdateByName` of the old stack. */
  lemma UpdateByNameEq(before: seq<LayerState>, after: seq<LayerState>, id: string, c: Change)
    requires |after| == |before|
    requires forall k :: 0 <= k < |before| ==> after[k] == UpdateIfNamed(before[k], id, c)
    ensures after == UpdateByName(before, id, c)
  {
    if |before| == 0 {
      assert UpdateByName(before, id, c) == [];
    } else {
      UpdateByNameAt(before, id, c, 0);
    }
    forall k | 0 <= k < |before| ensures after[k] == UpdateByName(before, id, c)[k] {
      UpdateByNameAt(before, id, c, k);
    }
  }

  /** A name that matches no layer changes nothing. */
  lemma {:induction false} UpdateByNameAbsent(stack: seq<LayerState>, id: string, c: Change)
    requires forall k :: 0 <= k < |stack| ==> stack[k].name != Some(id)
    ensures UpdateByName(stack, id, c) == stack
  {
    if stack != [] {
      UpdateByNameAbsent(stack[1..], id, c);
      assert [stack[0]] + stack[1..] == stack;
    }
  }

  /** Names, classNames and sources are never changed: no layer is added, removed,
      renamed or moved. */
  lemma {:induction false} UpdateByNameKeys(stack: seq<LayerState>, id: string, c: Change)
    ensures |UpdateByName(stack, id, c)| == |stack|
    ensures forall k :: 0 <= k < |stack| ==> Key(UpdateByName(stack, id, c)[k]) == Key(stack[k])
    ensures Keys(UpdateByName(stack, id, c)) == Keys(stack)
  {
    var after := UpdateByName(stack, id, c);
    if stack == [] {
      assert after == [];
    } else {
      UpdateByNameAt(stack, id, c, 0);
    }
    forall k | 0 <= k < |stack| ensures Key(after[k]) == Key(stack[k]) {
      UpdateByNameAt(stack, id, c, k);
    }
    forall key | key in Keys(stack) ensures key in Keys(after) {
      var k :| 0 <= k < |stack| && Key(stack[k]) == key;
      assert after[k] in after;
    }
    forall key | key in Keys(after) ensures key in Keys(stack) {
      var k :| 0 <= k < |after| && Key(after[k]) == key;
      assert stack[k] in stack;
    }
  }

  /** A visibility change leaves every opacity as it was, and an opacity change
      every visibility; the opacity is stored as given, with no clamping. */
  lemma UpdateByNameSeparates(stack: seq<LayerState>, id: string, c: Change, k: nat)
    requires k < |stack|
    ensures c.SetVisible? ==> UpdateByName(stack, id, c)[k].opacity == stack[k].opacity
    ensures c.SetOpacity? ==> UpdateByName(stack, id, c)[k].visible == stack[k].visible
    ensures c.SetOpacity? && stack[k].name == Some(id) ==> UpdateByName(stack, id, c)[k].opacity == c.opacity
    ensures c.SetVisible? && stack[k].name == Some(id) ==> UpdateByName(stack, id, c)[k].visible == c.visible
  {
    UpdateByNameAt(stack, id, c, k);
  }

  /** Applying the same change twice is the same as applying it once. */
  lemma UpdateByNameIdempotent(stack: seq<LayerState>, id: string, c: Change)
    ensures UpdateByName(UpdateByName(stack, id, c), id, c) == UpdateByName(stack, id, c)
  {
  }

  /** On the initial map the unnamed basemap is never reached by a name, and a name
      reaches exactly the one layer that carries it. */
  lemma InitialUpdateReachesOneLayer(id: string, c: Change, k: nat)
    requires k < |InitialStack()|
    ensures UpdateByName(InitialStack(), id, c)[k]
         == if InitialStack()[k].name == Some(id) then Apply(InitialStack()[k], c) else InitialStack()[k]
    ensures UpdateByName(InitialStack(), id, c)[0] == InitialStack()[0]
  {
    UpdateByNameAt(InitialStack(), id, c, k);
    UpdateByNameAt(InitialStack(), id, c, 0);
  }

  /** `hidden === 0 ? 1 : 0` */
  function ToggledHidden(hidden: int): int
  {
    if hidden == 0 then 1 else 0
  }

  /** Toggling always lands on 0 or 1, and twice from 0 or 1 restores the value. */
  lemma ToggledHiddenTwice(hidden: int)
    ensures ToggledHidden(hidden) == 0 || ToggledHidden(hidden) == 1
    ensures hidden == 0 || hidden == 1 ==> ToggledHidden(hidden) != hidden
    ensures hidden == 0 || hidden == 1 ==> ToggledHidden(ToggledHidden(hidden)) == hidden
  {
  }

  class Menu {
    var hidden: int
    var termsOfUseModal: bool
    var metadataModal: bool
    const olMap: OlMap

    /** The menu starts with the given `hidden` value and both modals closed. */
    constructor (ishidden: int, olMap: OlMap)
      ensures hidden == ishidden && !termsOfUseModal && !metadataModal && this.olMap == olMap
    {
      hidden := ishidden;
      termsOfUseModal := false;
      metadataModal := false;
      this.olMap := olMap;
    }

    /** Opens the terms-of-use modal only. */
    method ShowTermsOfUseModal()
      modifies this
      ensures termsOfUseModal && metadataModal == old(metadataModal) && hidden == old(hidden)
    {
      termsOfUseModal := true;
    }

    /** Opens the metadata modal only. */
    method ShowMetadataModal()
      modifies this
      ensures metadataModal && termsOfUseModal == old(termsOfUseModal) && hidden == old(hidden)
    {
      metadataModal := true;
    }

    /** Closes both modals (the same effect as `HandleCancel`). */
    method HandleOk()
      modifies this
      ensures !termsOfUseModal && !metadataModal && hidden == old(hidden)
    {
      termsOfUseModal := false;
      metadataModal := false;
    }

    /** Closes both modals (the same effect as `HandleOk`). */
    method HandleCancel()
      modifies this
      ensures !termsOfUseModal && !metadataModal && hidden == old(hidden)
    {
      termsOfUseModal := false;
      metadataModal := false;
    }

    /** Shows a hidden menu or hides a shown one. */
    method HandleMenu()
      modifies this
      ensures hidden == ToggledHidden(old(hidden))
      ensures termsOfUseModal == old(termsOfUseModal) && metadataModal == old(metadataModal)
    {
      if hidden == 0 {
        hidden := 1;
      } else {
        hidden := 0;
      }
    }

    /** Sets the visibility of every layer named `id` to `e`. */
    method HandleLayerVisibility(e: bool, id: string)
      requires olMap.Valid()
      modifies olMap.layers
      ensures olMap.Stack() == UpdateByName(old(olMap.Stack()), id, SetVisible(e))
    {
      ghost var before := olMap.Stack();
      var layers := olMap.layers;
      var i := 0;
      while i < |layers|
        invariant 0 <= i <= |layers|
        invariant forall k :: 0 <= k < i ==> layers[k].State() == UpdateIfNamed(before[k], id, SetVisible(e))
        invariant forall k :: i <= k < |layers| ==> layers[k].State() == before[k]
      {
        var lyr := layers[i];
        if lyr.name == Some(id) {
          lyr.SetVisible(e);
        }
        i := i + 1;
      }
      UpdateByNameEq(before, olMap.Stack(), id, SetVisible(e));
    }

    /** Sets the opacity of every layer named `name` to `opacity`, as given. */
    method HandleLayerOpacity(opacity: real, name: string)
      requires olMap.Valid()
      modifies olMap.layers
      ensures olMap.Stack() == UpdateByName(old(olMap.Stack()), name, SetOpacity(opacity))
    {
      ghost var before := olMap.Stack();
      var layers := olMap.layers;
      var i := 0;
      while i < |layers|
        invariant 0 <= i <= |layers|
        invariant forall k :: 0 <= k < i ==> layers[k].State() == UpdateIfNamed(before[k], name, SetOpacity(opacity))
        invariant forall k :: i <= k < |layers| ==> layers[k].State() == before[k]
      {
        var lyr := layers[i];
        if lyr.name == Some(name) {
          lyr.SetOpacity(opacity);
        }
        i := i + 1;
      }
      UpdateByNameEq(before, olMap.Stack(), name, SetOpacity(opacity));
    }
  }
}

=== FILE: popup.dfy ===
/**
 * The feature-info popup. Its state is four values (`popcoords`, `stations`,
 * `thickness`, `head`), the inline `display` style of the popup element and the
 * overlays the handlers add to the map. Three kinds of event change it: a single
 * click (which also issues one request per queried layer), the arrival of one such
 * request's response, and the close button. Pointer moves only change the cursor.
 *
 * The transitions are first given as functions on `PopupState`; the class `Popup`
 * performs them in place and is proved against those functions; `Session` runs any
 * interleaving of clicks, responses and closes.
 */
module Popup {
  import opened Common
  import opened JsString
  import opened MapRegion

  /** The three state variables a response can be written to. */
  datatype Field = StationsField | ThicknessField | HeadField

  /** A request in flight. Its response handler only knows the variable name derived
      from the layer's name when the request was issued; nothing ties it to a click. */
  datatype Query = Query(layerName: string, varName: Option<string>)

  /** `layerName.split('_')[1]` (`undefined` when the name has no '_'). */
  function VarName(layerName: string): (v: Option<string>)
    ensures v.None? <==> '_' !in layerName
    ensures v.Some? ==> |Split(layerName, '_')| > 1 && v.value == Split(layerName, '_')[1]
  {
    SplitInTwo(layerName, '_');
    Segment(layerName, '_', 1)
  }

  /** Which state variable a response is stored in: 'stations' and 'thickness' have
      their own, anything else (an absent segment included) goes to `head`. */
  function Route(varName: Option<string>): (f: Field)
    ensures f == StationsField <==> varName == Some("stations")
    ensures f == ThicknessField <==> varName == Some("thickness")
  {
    if varName == Some("stations") then StationsField
    else if varName == Some("thickness") then ThicknessField
    else HeadField
  }

  /** The `layerFilter` of both hit tests: only layers whose className is not the
      default take part. */
  predicate PassesFilter(l: LayerState)
  {
    l.className != DefaultClassName
  }

  /** The click callback can build a request for the layer without a TypeError: it
      needs a WMS source (for `getFeatureInfoUrl`) and a name (for `split`). */
  predicate Queryable(l: LayerState)
  {
    l.source.Some? && l.source.value.Wms? && l.name.Some?
  }

  /** The requests a click issues, and whether the walk over the hit layers finished
      (false when a callback threw, which ends the click handler). */
  datatype Walk = Walk(queries: seq<Query>, completed: bool)

  /** The hit layers that pass the filter, in the order the renderer visits them. */
  function Passing(hits: seq<LayerState>): (passing: seq<LayerState>)
    ensures |passing| <= |hits|
    ensures forall i :: 0 <= i < |passing| ==> PassesFilter(passing[i])
  {
    if hits == [] then []
    else if PassesFilter(hits[0]) then [hits[0]] + Passing(hits[1..])
    else Passing(hits[1..])
  }

  /** `Passing` keeps exactly the hits that pass the filter. */
  lemma {:induction false} PassingMembers(hits: seq<LayerState>)
    ensures forall l :: l in Passing(hits) <==> l in hits && PassesFilter(l)
  {
    if hits != [] {
      PassingMembers(hits[1..]);
      assert hits == [hits[0]] + hits[1..];
    }
  }

  /** The hit test's walk over `hits` (the layers the renderer reports at the
      clicked pixel, in the order it visits them): every layer that passes the
      filter gets one request, in that order, until one that cannot be queried
      throws and stops the walk. */
  function IssueQueries(hits: seq<LayerState>): (w: Walk)
    ensures |w.queries| <= |hits|
    ensures forall i :: 0 <= i < |w.queries| ==> w.queries[i].varName == VarName(w.queries[i].layerName)
  {
    if hits == [] then Walk([], true)
    else if !PassesFilter(hits[0]) then IssueQueries(hits[1..])
    else if !Queryable(hits[0]) then Walk([], false)
    else
      var rest := IssueQueries(hits[1..]);
      var name := hits[0].name.value;
      Walk([Query(name, VarName(name))] + rest.queries, rest.completed)
  }

  /** Request `i` is for the `i`-th hit layer that passes the filter, which can be
      queried; the walk completes exactly when every such layer got its request, and
      otherwise it stopped at the first one that cannot be queried. */
  lemma {:induction false} IssueQueriesRequests(hits: seq<LayerState>)
    ensures |IssueQueries(hits).queries| <= |Passing(hits)|
    ensures IssueQueries(hits).completed <==> |IssueQueries(hits).queries| == |Passing(hits)|
    ensures !IssueQueries(hits).completed ==> !Queryable(Passing(hits)[|IssueQueries(hits).queries|])
    ensures forall i :: 0 <= i < |IssueQueries(hits).queries| ==>
      Queryable(Passing(hits)[i]) && Passing(hits)[i].name == Some(IssueQueries(hits).queries[i].layerName)
  {
    if hits != [] {
      IssueQueriesRequests(hits[1..]);
      var w := IssueQueries(hits);
      var rest := IssueQueries(hits[1..]);
      if !PassesFilter(hits[0]) {
        assert Passing(hits) == Passing(hits[1..]);
      } else if Queryable(hits[0]) {
        var passing := Passing(hits);
        assert passing == [hits[0]] + Passing(hits[1..]);
        assert w.queries == [Query(hits[0].name.value, VarName(hits[0].name.value))] + rest.queries;
        forall i | 0 < i < |w.queries|
          ensures w.queries[i] == rest.queries[i - 1] && passing[i] == Passing(hits[1..])[i - 1]
        {
        }
      }
    }
  }

  /** The walk completes exactly when every hit layer that passes the filter can be
      queried. */
  lemma IssueQueriesCompleted(hits: seq<LayerState>)
    ensures IssueQueries(hits).completed
        <==> forall k :: 0 <= k < |hits| && PassesFilter(hits[k]) ==> Queryable(hits[k])
  {
    var w := IssueQueries(hits);
    var passing := Passing(hits);
    PassingMembers(hits);
    IssueQueriesRequests(hits);
    if w.completed {
      forall k | 0 <= k < |hits| && PassesFilter(hits[k]) ensures Queryable(hits[k]) {
        assert hits[k] in passing;
        var i :| 0 <= i < |passing| && passing[i] == hits[k];
      }
    } else {
      assert passing[|w.queries|] in passing;
      var k :| 0 <= k < |hits| && hits[k] == passing[|w.queries|];
    }
  }

  /** Some hit layer passes the filter exactly when `Passing` is not empty. */
  lemma PassingNonEmpty(hits: seq<LayerState>)
    ensures |Passing(hits)| > 0 <==> exists k :: 0 <= k < |hits| && PassesFilter(hits[k])
  {
  }

  /** The cursor after a pointer move: unchanged while dragging, otherwise "pointer"
      exactly when some layer that passes the filter is hit. */
  function CursorAfterMove(cursor: string, dragging: bool, hits: seq<LayerState>): (r: string)
    ensures dragging ==> r == cursor
    ensures !dragging ==> (r == "pointer" <==> |Passing(hits)| > 0) && (r == "" <==> |Passing(hits)| == 0)
  {
    PassingNonEmpty(hits);
    if dragging then cursor
    else if exists k :: 0 <= k < |hits| && PassesFilter(hits[k]) then "pointer"
    else ""
  }

  // ------------------------------------------------------------- state

  datatype PopupState = PopupState(
    popcoords: Option<string>,
    stations: Option<string>,
    thickness: Option<string>,
    head: Option<string>,
    display: string,
    overlays: seq<Coord>)

  /** Nothing set yet; the element has no inline display style. */
  function Initial(overlays: seq<Coord>): PopupState
  {
    PopupState(None, None, None, None, "", overlays)
  }

  function FieldValue(s: PopupState, f: Field): Option<string>
  {
    match f
    case StationsField => s.stations
    case ThicknessField => s.thickness
    case HeadField => s.head
  }

  datatype ClickResult = ClickResult(state: PopupState, queries: seq<Query>)

  /** A single click at `coord`, whose formatted form is `coordLabel`: the three data
      values are cleared, the requests are issued, then the coordinates are stored,
      the element shown and one overlay added. If the walk threw, only the clearing
      and the requests issued before the throw take effect. */
  function Click(s: PopupState, coord: Coord, coordLabel: string, hits: seq<LayerState>): ClickResult
  {
    var cleared := s.(stations := None, thickness := None, head := None);
    var walk := IssueQueries(hits);
    if walk.completed then
      ClickResult(cleared.(popcoords := Some(coordLabel), display := "unset", overlays := s.overlays + [coord]), walk.queries)
    else
      ClickResult(cleared, walk.queries)
  }

  /** The response `data` to request `q` is stored in the variable `q` routes to. */
  function Respond(s: PopupState, q: Query, data: string): PopupState
  {
    match Route(q.varName)
    case StationsField => s.(stations := Some(data))
    case ThicknessField => s.(thickness := Some(data))
    case HeadField => s.(head := Some(data))
  }

  /** The close button clears the three data values and hides the element. */
  function Close(s: PopupState): PopupState
  {
    s.(stations := None, thickness := None, head := None, display := "none")
  }

  // ------------------------------------------------------------- what is rendered

  /** A table cell: parsed markup, or plain text. */
  datatype Cell = Markup(html: string) | Text(text: string)

  /** The value cell of a data row. */
  function RowCell(v: Option<string>): Cell
  {
    if Truthy(v) then Markup(v.value) else Text("Fora da camada")
  }

  /** The position of a data row in the table: stations, thickness, then head. */
  function Rank(f: Field): nat
  {
    match f
    case StationsField => 0
    case ThicknessField => 1
    case HeadField => 2
  }

  /** The data rows rendered, in table order: a row appears only when its value is truthy. */
  function VisibleRows(s: PopupState): seq<Field>
  {
    (if Truthy(s.stations) then [StationsField] else [])
    + (if Truthy(s.thickness) then [ThicknessField] else [])
    + (if Truthy(s.head) then [HeadField] else [])
  }

  /** The coordinates cell. */
  function CoordsCell(s: PopupState): string
  {
    if Truthy(s.popcoords) then s.popcoords.value else "Clique no mapa"
  }

  // ------------------------------------------------------------- the component

  class Popup {
    var popcoords: Option<string>
    var stations: Option<string>
    var thickness: Option<string>
    var head: Option<string>
    var display: string
    const olMap: OlMap

    function State(): PopupState
      reads this, olMap
    {
      PopupState(popcoords, stations, thickness, head, display, olMap.overlays)
    }

    constructor (olMap: OlMap)
      ensures this.olMap == olMap && State() == Initial(olMap.overlays)
    {
      popcoords, stations, thickness, head := None, None, None, None;
      display := "";
      this.olMap := olMap;
    }

    /** `closePopUp` */
    method ClosePopUp()
      modifies this
      ensures State() == Close(old(State()))
    {
      stations := None;
      thickness := None;
      head := None;
      display := "none";
    }

    /** The `singleclick` handler; returns the requests it issued. */
    method OnSingleClick(coord: Coord, coordLabel: string, hits: seq<LayerState>) returns (queries: seq<Query>)
      modifies this, olMap
      ensures State() == Click(old(State()), coord, coordLabel, hits).state
      ensures queries == Click(old(State()), coord, coordLabel, hits).queries
    {
      stations := None;
      thickness := None;
      head := None;
      var walk := IssueQueries(hits);
      queries := walk.queries;
      if walk.completed {
        popcoords := Some(coordLabel);
        display := "unset";
        olMap.AddOverlay(coord);
      }
    }

    /** The response handler of request `q`. */
    method OnResponse(q: Query, data: string)
      modifies this
      ensures State() == Respond(old(State()), q, data)
    {
      var varName := q.varName;
      if varName == Some("stations") {
        stations := Some(data);
      } else if varName == Some("thickness") {
        thickness := Some(data);
      } else {
        head := Some(data);
      }
    }
  }

  // ------------------------------------------------------------- properties of one event

  /** A click clears all three data values; when the walk completes it stores the
      new coordinates, shows the element and adds exactly one overlay at `coord`. */
  lemma ClickEffect(s: PopupState, coord: Coord, coordLabel: string, hits: seq<LayerState>)
    ensures var r := Click(s, coord, coordLabel, hits).state;
      r.stations == None && r.thickness == None && r.head == None
    ensures var r := Click(s, coord, coordLabel, hits).state;
      IssueQueries(hits).completed ==> r.popcoords == Some(coordLabel) && r.display == "unset" && r.overlays == s.overlays + [coord]
    ensures var r := Click(s, coord, coordLabel, hits).state;
      !IssueQueries(hits).completed ==> r.popcoords == s.popcoords && r.display == s.display && r.overlays == s.overlays
  {
  }

  /** A response writes exactly the variable it routes to and leaves the other two,
      the coordinates, the element and the overlays alone. */
  lemma RespondWritesOneField(s: PopupState, q: Query, data: string, f: Field)
    ensures FieldValue(Respond(s, q, data), f) == if f == Route(q.varName) then Some(data) else FieldValue(s, f)
    ensures Respond(s, q, data).popcoords == s.popcoords
    ensures Respond(s, q, data).display == s.display && Respond(s, q, data).overlays == s.overlays
  {
  }

  /** Closing clears the data values and hides the element, but keeps the
      coordinates and every overlay. */
  lemma CloseKeepsCoordinates(s: PopupState, f: Field)
    ensures FieldValue(Close(s), f) == None && Close(s).display == "none"
    ensures Close(s).popcoords == s.popcoords && Close(s).overlays == s.overlays
  {
  }

  /** Responses do not commute: of two responses routed to the same variable, the
      later one stays, whichever click issued it. */
  lemma LaterResponseWins(s: PopupState, q1: Query, d1: string, q2: Query, d2: string)
    requires Route(q1.varName) == Route(q2.varName)
    ensures FieldValue(Respond(Respond(s, q1, d1), q2, d2), Route(q2.varName)) == Some(d2)
  {
  }

  /** A name without '_' routes to `head`, so the telemetry layer's name "stations"
      sends its responses to `head`; a name like "telemetry_stations" would have
      reached `stations`. */
  lemma RouteByName(name: string)
    ensures '_' !in name ==> Route(VarName(name)) == HeadField
    ensures Route(VarName("stations")) == HeadField
    ensures Route(VarName("telemetry_stations")) == StationsField
  {
    var parts := ["telemetry", "stations"];
    assert Join(parts, '_') == "telemetry_stations";
    VarNameOfJoin(parts);
  }

  /** Rows are rendered only for truthy values, so a rendered row never shows the
      "Fora da camada" placeholder; the coordinates cell shows "Clique no mapa" until
      coordinates are set. */
  lemma RenderedRows(s: PopupState, f: Field)
    ensures f in VisibleRows(s) <==> Truthy(FieldValue(s, f))
    ensures forall i, j :: 0 <= i < j < |VisibleRows(s)| ==> Rank(VisibleRows(s)[i]) < Rank(VisibleRows(s)[j])
    ensures f in VisibleRows(s) ==> RowCell(FieldValue(s, f)) == Markup(FieldValue(s, f).value)
    ensures CoordsCell(s) == "Clique no mapa" <==> !Truthy(s.popcoords) || s.popcoords.value == "Clique no mapa"
  {
  }

  // ------------------------------------------------------------- the initial map

  /** A layer of the initial map passes the filter exactly when it is the telemetry layer. */
  lemma InitialKey(key: LayerKey)
    requires key in Keys(InitialStack())
    ensures key.className != DefaultClassName <==> key == Key(InitialStack()[5])
    ensures key.name == Some("stations") ==> key == Key(InitialStack()[5])
  {
  }

  /** A click on the initial map (whatever the menus have switched since) always
      completes, and every request it issues is for the "stations" layer, whose
      response goes to `head`. */
  lemma {:induction false} InitialMapQueries(hits: seq<LayerState>)
    requires forall k :: 0 <= k < |hits| ==> Key(hits[k]) in Keys(InitialStack())
    ensures IssueQueries(hits).completed
    ensures forall i :: 0 <= i < |IssueQueries(hits).queries| ==> IssueQueries(hits).queries[i] == Query("stations", None)
  {
    if hits != [] {
      var tail := hits[1..];
      assert forall k :: 0 <= k < |tail| ==> tail[k] == hits[k + 1];
      InitialMapQueries(tail);
      var h := hits[0];
      InitialKey(Key(h));
      var rest := IssueQueries(tail);
      if PassesFilter(h) {
        StationsVarName();
        assert h.name == Some("stations") && Queryable(h);
        assert IssueQueries(hits) == Walk([Query("stations", None)] + rest.queries, rest.completed);
      } else {
        assert IssueQueries(hits) == rest;
      }
    }
  }

  /** A click on the initial map that hits the telemetry layer issues a request for
      it, whose response goes to `head`. */
  lemma InitialMapIssuesStations(hits: seq<LayerState>, k: nat)
    requires forall k :: 0 <= k < |hits| ==> Key(hits[k]) in Keys(InitialStack())
    requires k < |hits| && hits[k].name == Some("stations")
    ensures Query("stations", None) in IssueQueries(hits).queries
  {
    InitialMapQueries(hits);
    InitialKey(Key(hits[k]));
    PassingMembers(hits);
    assert hits[k] in hits;
    assert |Passing(hits)| > 0;
    IssueQueriesRequests(hits);
    assert IssueQueries(hits).queries[0] in IssueQueries(hits).queries;
  }

  /** A layer name made of separator-free parts has its second part as variable name. */
  lemma VarNameOfJoin(parts: seq<string>)
    requires |parts| >= 2
    requires forall i :: 0 <= i < |parts| ==> '_' !in parts[i]
    ensures VarName(Join(parts, '_')) == Some(parts[1])
  {
    SplitJoin(parts, '_');
  }

  /** The telemetry layer's name has no second '_'-separated segment. */
  lemma StationsVarName()
    ensures VarName("stations") == None
  {
  }

  /** On the initial map the pointer cursor appears exactly over the telemetry layer. */
  lemma InitialMapCursor(cursor: string, hits: seq<LayerState>)
    requires forall k :: 0 <= k < |hits| ==> Key(hits[k]) in Keys(InitialStack())
    ensures CursorAfterMove(cursor, false, hits) == "pointer"
        <==> exists k :: 0 <= k < |hits| && hits[k].name == Some("stations")
  {
  }

  // ------------------------------------------------------------- interleavings

  /** An event the popup sees. A request issued by some click resolves (`Resolve`)
      or fails (`Reject`, which has no handler) at most once, at any later time. */
  datatype Event =
    | SingleClick(coord: Coord, coordLabel: string, hits: seq<LayerState>)
    | Resolve(query: Query, data: string)
    | Reject(query: Query)
    | CloseClick

  /** The popup together with the requests still in flight. */
  datatype Session = Session(popup: PopupState, inflight: multiset<Query>)

  predicate Enabled(s: Session, e: Event)
  {
    match e
    case Resolve(q, _) => q in s.inflight
    case Reject(q) => q in s.inflight
    case _ => true
  }

  function Step(s: Session, e: Event): Session
    requires Enabled(s, e)
  {
    match e
    case SingleClick(coord, coordLabel, hits) =>
      var r := Click(s.popup, coord, coordLabel, hits);
      Session(r.state, s.inflight + multiset(r.queries))
    case Resolve(q, data) => Session(Respond(s.popup, q, data), s.inflight - multiset{q})
    case Reject(q) => Session(s.popup, s.inflight - multiset{q})
    case CloseClick => Session(Close(s.popup), s.inflight)
  }

  /** An outcome takes its request out of flight: one copy fewer, so each request
      issued is resolved or rejected at most once. */
  lemma OutcomeRemoves(s: Session, q: Query, data: string)
    requires q in s.inflight
    ensures Step(s, Resolve(q, data)).inflight[q] == s.inflight[q] - 1
    ensures Step(s, Reject(q)).inflight[q] == s.inflight[q] - 1
  {
  }

  predicate ValidTrace(s: Session, events: seq<Event>)
    decreases |events|
  {
    events == [] || (Enabled(s, events[0]) && ValidTrace(Step(s, events[0]), events[1..]))
  }

  function Run(s: Session, events: seq<Event>): Session
    requires ValidTrace(s, events)
    decreases |events|
  {
    if events == [] then s else Run(Step(s, events[0]), events[1..])
  }

  /** The positions of the clicks among `events` whose walk completes. */
  function CompletedClicks(events: seq<Event>): seq<Coord>
  {
    if events == [] then []
    else
      var rest := CompletedClicks(events[1..]);
      match events[0]
      case SingleClick(coord, _, hits) => if IssueQueries(hits).completed then [coord] + rest else rest
      case _ => rest
  }

  /** Overlays only accumulate: each completed click adds one at its position, in
      order, and no event ever removes one. */
  lemma {:induction false} RunOverlays(s: Session, events: seq<Event>)
    requires ValidTrace(s, events)
    ensures Run(s, events).popup.overlays == s.popup.overlays + CompletedClicks(events)
    decreases |events|
  {
    if events != [] {
      var next := Step(s, events[0]);
      RunOverlays(next, events[1..]);
      match events[0] {
      case SingleClick(coord, coordLabel, hits) =>
        if IssueQueries(hits).completed {
          assert next.popup.overlays == s.popup.overlays + [coord];
        }
      case _ =>
      }
    }
  }

  /** A response to a request issued before a newer click is not discarded: it is
      still in flight after the click and, when it arrives, overwrites the variable
      it routes to while the coordinates stay those of the newer click. */
  lemma StaleResponseOverwrites(s: Session, q: Query, data: string, coord: Coord, coordLabel: string, hits: seq<LayerState>)
    requires q in s.inflight
    ensures Enabled(Step(s, SingleClick(coord, coordLabel, hits)), Resolve(q, data))
    ensures var after := Step(Step(s, SingleClick(coord, coordLabel, hits)), Resolve(q, data));
      FieldValue(after.popup, Route(q.varName)) == Some(data)
      && after.popup.popcoords == Step(s, SingleClick(coord, coordLabel, hits)).popup.popcoords
  {
  }

  /** The invariant of every session on the initial map: `stations` and `thickness`
      are never set and every request in flight routes to `head`. */
  ghost predicate OnlyHead(s: Session)
  {
    s.popup.stations == None && s.popup.thickness == None
    && forall q :: q in s.inflight ==> Route(q.varName) == HeadField
  }

  /** Every click of the trace hits only layers of the initial map. */
  predicate ClicksOnInitialMap(events: seq<Event>)
  {
    forall i :: 0 <= i < |events| && events[i].SingleClick? ==>
      forall k :: 0 <= k < |events[i].hits| ==> Key(events[i].hits[k]) in Keys(InitialStack())
  }

  /** One event keeps the invariant, provided a click hits only layers of the initial map. */
  lemma StepKeepsOnlyHead(s: Session, e: Event)
    requires OnlyHead(s) && Enabled(s, e)
    requires e.SingleClick? ==> forall k :: 0 <= k < |e.hits| ==> Key(e.hits[k]) in Keys(InitialStack())
    ensures OnlyHead(Step(s, e))
  {
    match e {
    case SingleClick(coord, coordLabel, hits) =>
      InitialMapQueries(hits);
      var qs := IssueQueries(hits).queries;
      var next := Step(s, e);
      forall q | q in next.inflight ensures Route(q.varName) == HeadField {
        if q !in s.inflight {
          assert q in multiset(qs);
          assert q in qs;
        }
      }
    case _ =>
    }
  }

  /** On the initial map, in any interleaving, every response lands in `head`: the
      stations and thickness rows are never rendered. */
  lemma {:induction false} InitialMapOnlyHead(s: Session, events: seq<Event>)
    requires OnlyHead(s) && ValidTrace(s, events) && ClicksOnInitialMap(events)
    ensures OnlyHead(Run(s, events))
    ensures StationsField !in VisibleRows(Run(s, events).popup) && ThicknessField !in VisibleRows(Run(s, events).popup)
    decreases |events|
  {
    if events != [] {
      StepKeepsOnlyHead(s, events[0]);
      assert ClicksOnInitialMap(events[1..]) by {
        forall i | 0 <= i < |events[1..]| ensures events[1..][i] == events[i + 1] {}
      }
      InitialMapOnlyHead(Step(s, events[0]), events[1..]);
    }
  }

  /** The session the page starts in. */
  function InitialSession(): Session
  {
    Session(Initial([]), multiset{})
  }

  /** From page load, on the initial map, the stations and thickness rows never appear. */
  lemma NoStationsRowFromStart(events: seq<Event>)
    requires ValidTrace(InitialSession(), events) && ClicksOnInitialMap(events)
    ensures Run(InitialSession(), events).popup.stations == None
    ensures Run(InitialSession(), events).popup.thickness == None
  {
    InitialMapOnlyHead(InitialSession(), events);
  }
}
